=== FILE: README.md ===
# Platformer physics and editor steps, in Dafny

This project models the core of a small pygame platformer and of its level
and sprite editors.

The game (`platformer.py`) works in ticks. In one tick the player reads the held keys,
jumps if standing on ground, falls under gravity up to a terminal velocity,
and is resolved against every solid tile of the level. It is then clamped to
the world's left, right and top edges and is reset to its start point when it
falls below the world. The camera follows the player with a dead zone and is
clamped to the world. The world itself is derived from a grid of tile codes,
or is a flat floor when the level file is missing.

The editor (`main.py`) is modelled as small pure steps taken out of its event
loop:

- building blank grids;
- moving between level numbers;
- panning and clamping the editor camera;
- mapping the mouse to a level cell or a sprite-canvas cell and painting it;
- editing the export file name;
- gating the export and counting down the feedback timer.

Modules, one per component:

- `Geometry` (geometry.dfy): `Rect`, pygame's `colliderect` as `Collide`, and the float-to-pixel conversion `ToPixel`.
- `Grids` (grids.dfy): grids as `seq<seq<int>>`, blank grids, single-cell writes, and the palette loop both editors share.
- `TileWorld` (world.dfy): `World.__init__`.
- `Physics` (physics.dfy): `Player.__init__`, `Player.reset` and `Player.update`. The collision loop is a left fold over the tile list.
- `Camera` (camera.dfy): the dead-zone follow and clamp of `main()`.
- `LevelEditor` (level_editor.dfy) and `SpriteEditor` (sprite_editor.dfy): the editor steps.

Numeric choices and assumptions:

- Vertical velocity and the vertical step are integers in tenths of a pixel.
  Gravity is 8, a jump sets -180 and the terminal velocity is 150. These stand
  for the source's 0.8, -18 and 15.
- Storing a fractional coordinate in a Rect goes through `Geometry.ToPixel`.
  Its body casts toward zero, which is assumed to be what pygame does. The
  proofs use only its contract: whole pixels are kept exactly, and the result
  is less than one pixel away. After a snap the step is a whole number of
  pixels, so every snap property is exact.
- `Collide` is strict overlap on both axes, so touching edges do not collide.
  This is pygame's documented behaviour for rectangles of positive size, and it
  is an assumption here.
- The dead-zone edges are the integers 384, 896, 216 and 504. In Python,
  `720 * 0.7` evaluates to 503.99999999999994, not 504. With that value the
  bottom test also fires when the player's screen bottom is exactly 504. For
  a player at most 288 pixels tall the top test cannot fire in the same tick,
  so the shift is below one pixel. Once the camera is converted to an int and
  clamped to the world, the result matches the integer model. This argument
  is not proved here. For a taller player the two tests can both fire, and
  then the source and the model may differ (see "Left out").
- A loaded level grid may be smaller than 36x64. The editor's drag-painting
  bounds check uses the constants 36 and 64, not the grid's own size, so the
  write can raise an IndexError. `LevelEditor.Paint` returns `IndexError` in
  exactly that case.

## Model

| member | source | states |
|---|---|---|
| Geometry.ToPixel | platformer.py:119-121 | converting a coordinate held in tenths keeps whole pixels exactly and is otherwise off by less than one pixel |
| TileWorld.RowTilesSpec | platformer.py:167-169 | the rectangles appended for one row are exactly the 40x40 squares at (col*40, row*40) of its positive cells, in increasing column order |
| TileWorld.GridTilesSpec | platformer.py:166-169 | the tile list holds exactly one rectangle per positive cell of the grid, and the list is strictly ordered row by row, left to right |
| TileWorld.FromGrid | platformer.py:160-169 | a loaded grid gives exactly its solid cells' tiles in row-major order; height is rows*40 and width is len(row 0)*40, or 0x0 for an empty grid |
| TileWorld.Fallback | platformer.py:171-177 | a missing level gives 50 floor tiles at (i*40, 680) and a 2000x720 world |
| TileWorld.Load | platformer.py:156-177 | a parsed level file gives exactly its solid cells' tiles in row-major order and a world of rows*40 by len(row 0)*40 pixels (0x0 for an empty grid); a missing file gives 50 floor tiles at (i*40, 680) in a 2000x720 world |
| Physics.Spawn | platformer.py:49-70 | a new player stands at the given point, which is also its start, at rest and airborne; its box takes a loaded sprite's size, and is 40x40 without one |
| Physics.Reset | platformer.py:72-77 | a reset puts the box at the start coordinates, zeroes the velocity, clears the grounded flag and keeps the start and the size |
| Physics.ResetIdempotent | platformer.py:72-77 | resetting twice equals resetting once |
| Physics.Intent | platformer.py:86-90 | the horizontal step is -7, 0 or +7; it is -7 exactly when only left is held and +7 exactly when only right is held, so both keys give 0 |
| Physics.Accelerate | platformer.py:91-99 | a jump fires only when jump is held and the player was grounded at the start of the tick; after gravity the velocity is at most the terminal velocity |
| Physics.StepX | platformer.py:104-106 | the horizontal test zeroes dx when the box moved by dx overlaps the tile, and otherwise changes nothing; it never touches dy, velocity or the flag |
| Physics.StepY | platformer.py:107-117 | the vertical test changes nothing without overlap; on overlap the velocity becomes 0 and dy a whole number of pixels, so that after the move the top meets the tile's bottom (moving up) or the bottom meets the tile's top and the flag is set (otherwise) |
| Physics.Resolve | platformer.py:102-117 | the loop over all tiles never clears the grounded flag and leaves the velocity as it was or at 0; when it cancels dx, whether a Y test fires, and what the last one leaves behind are stated by ResolveFacts and the lemmas below |
| Physics.Move | platformer.py:119-121 | applying the motion keeps the size, moves x by dx, and moves y by dy tenths, exactly when dy is a whole number of pixels and otherwise to within one pixel |
| Physics.ResolveFacts | platformer.py:102-117 | after the tile loop, dx is either unchanged or zero, and it ends zero exactly when it started zero or some tile meets the box moved by dx; no Y test fires exactly when no tile meets the box moved by dy; with no fired Y test, dy, velocity and the flag are untouched; otherwise the velocity is 0 and dy is the snap of the last fired test; the flag is set exactly when some fired test went downward; every fired test after the first is downward |
| Physics.ResolveHorizontal | platformer.py:104-106 | the loop leaves dx unchanged or zero, and a zero dx stays zero |
| Physics.ResolveBlocked | platformer.py:103-106 | the loop ends with dx zero exactly when dx started zero or some tile of the list meets the box moved by the starting dx |
| Physics.ResolveNoHits | platformer.py:103-108 | no Y test fires exactly when no tile of the list meets the box moved by the starting dy |
| Physics.ResolveVertical | platformer.py:107-117 | with no fired Y test the loop leaves dy, velocity and the flag untouched; otherwise velocity is 0 and dy is the snap of the last fired test |
| Physics.LaterHitsDownward | platformer.py:108-117 | after a first fired Y test every later one takes the downward branch, and all do when the loop starts with velocity at least 0 |
| Physics.ResolveGrounded | platformer.py:102-117 | the flag ends set exactly when it started set or some fired Y test went downward |
| Physics.HitsFromTiles | platformer.py:103-108 | every fired Y test is against a tile of the world's list |
| Physics.ResolveUnobstructed | platformer.py:103-117 | when no tile meets either probe, the loop changes nothing and no Y test fires |
| Physics.SnapToLastHit | platformer.py:103-121 | after the move, the player's bottom equals the top of the last tile hit downward, or its top equals the bottom of the last tile hit upward; starting ungrounded, the flag ends set exactly when that last hit was downward |
| Physics.ClampToEdges | platformer.py:123-130 | after the edge clamps the right edge is within the world, the left edge is at least 0 when the player fits the world's width, and the top is at least 0; a box left of 0 is set to x = 0 and a box past the right edge to x = width - w, a box above 0 to y = 0; only a top clamp zeroes the velocity, and nothing is clamped at the bottom |
| Physics.Update | platformer.py:80-135 | a tick keeps the start point and the box size, leaves the velocity at most the terminal velocity, and ends either in the reset state or with the box inside the world |
| Physics.GroundedAfterUpdate | platformer.py:101-130 | after a tick whose clamped box is not below the world, the player is grounded exactly when the last fired Y test was downward, and then rests on that tile's top unless the top clamp moved it; after any fired Y test the velocity is 0 |
| Physics.VelocityAfterUpdate | platformer.py:107-130 | after a tick whose clamped box is not below the world, a box moved above the world's top ends at y = 0 with velocity 0, any fired Y test leaves velocity 0, and otherwise the velocity is the one gravity gave it |
| Physics.WallStops | platformer.py:103-127 | when some tile meets the box moved by the intended step, a surviving tick that starts inside the world's width leaves the player's x unchanged |
| Physics.FreeFlight | platformer.py:80-130 | with no tile in the way and no edge reached, the player moves by exactly (dx, dy) and keeps the velocity gravity gave it |
| Physics.DeathResets | platformer.py:132-135 | when the box ends below the world, the tick ends at the start coordinates with zero velocity and not grounded |
| Physics.NoAirJump | platformer.py:91-93 | while airborne, holding jump gives the same tick as not holding it |
| Physics.NewGame | platformer.py:195-197 | a game starts in the world `TileWorld.Load` builds from the level file (its solid tiles in row-major order and its pixel size, or the 50-tile floor of a 2000x720 world when the file is missing), with the player at rest and airborne at (100, 520), which is also its reset point, and the camera at the origin with the screen's size |
| Camera.FollowAxis | platformer.py:217-228 | on one axis, when the player fits the dead zone, the camera moves exactly when the player is outside the dead zone, and afterwards the player is inside it |
| Camera.FollowAxisIsNearest | platformer.py:220-228 | of all camera positions that put the player in the dead zone, the followed one is nearest to the old position |
| Camera.Follow | platformer.py:210-228 | both axes follow independently, the camera keeps its size, and each axis moves only when the player leaves that axis's dead zone |
| Camera.ClampAxis | platformer.py:230-238 | on one axis, when the camera fits the world the clamped position lies in [0, bound - size]; a camera already inside is left alone; a camera below 0 that fits goes to 0, and one past the high edge goes to bound - size |
| Camera.ClampToWorld | platformer.py:230-238 | with the world at least as large as the camera, the clamp gives left and top at least 0 and right and bottom within the world |
| Camera.Track | platformer.py:210-238 | follow then clamp keeps the camera within the world on both axes and keeps its size |
| Camera.TrackKeepsPlayerInDeadZone | platformer.py:210-238 | where the world leaves the followed camera unclamped, the player ends the tick inside the dead zone |
| Grids.Blank | main.py:113 | a blank grid has the requested number of rows and columns, all zero |
| Grids.SetCell | main.py:299 | a cell write changes exactly that cell and keeps the grid's shape |
| Grids.Pick | main.py:246-247 | a palette click selects i+1 for the last button i containing the click, and keeps the old selection when no button contains it |
| Grids.PickStaysInRange | main.py:277-278 | a selection in 1..n stays in 1..n after a click on a palette of n buttons |
| LevelEditor.BlankLevel | main.py:71-72 | the blank level grid is 36 rows by 64 columns of zeros |
| LevelEditor.LoadLevel | main.py:105-115 | loading level n sets the level number, takes the file's grid or, for a missing file, a 36x64 grid of zeros, and puts the camera at (0, 0) keeping its size |
| LevelEditor.Initial | main.py:67-75 | the editor starts on level 1 with its file's grid or a blank one, tile 1 selected, not drawing, and the camera at Rect(0, 0, 1280, 720) |
| LevelEditor.Navigate | main.py:215-218 | right Shift goes to the next level, left Shift to the previous one only above level 1, so the level stays at least 1; a level change loads that level as LoadLevel does (its grid, the camera at the origin) |
| LevelEditor.Pan | main.py:314-318 | with Ctrl held, the first held arrow in the order left, right, up, down moves the camera 15 pixels that way and the others are ignored; without Ctrl or without an arrow the camera stays |
| LevelEditor.ClampCamera | main.py:319-323 | after the clamp the camera's right and bottom are within 2560x1440 and its left and top are at least 0 when it fits; a camera inside is left alone; on each axis a fitting camera below 0 goes to 0, and one past the far edge goes to 2560 - w or 1440 - h |
| LevelEditor.CameraTick | main.py:311-323 | from inside the level, a tick keeps the camera inside the level, moves at most one axis by at most 15, and does nothing without Ctrl |
| LevelEditor.MouseCell | main.py:295-297 | the chosen cell is the 40-pixel square containing the mouse position shifted by the camera |
| LevelEditor.Paint | main.py:292-299 | a drag writes the selected tile when drawing and 0 when erasing, only left of the panel and in rows 0..35 and columns 0..63; every other cell is unchanged, and the write fails exactly when the grid lacks that cell |
| LevelEditor.PaintShapedNeverFails | main.py:298-299 | on a 36x64 grid a drag never fails and keeps the shape |
| LevelEditor.MouseDown | main.py:237-250 | a press keeps the level, camera and validity; the reset button blanks the grid and nothing else changes it; a palette click selects i+1 for the last button hit and nothing else changes the selection; only a world press with button 1 starts drawing, and only one with button 3 starts erasing |
| LevelEditor.MouseUp | main.py:225-227 | a release stops drawing and erasing |
| SpriteEditor.Initial | main.py:77-83 | the sprite editor starts with a 40x40 canvas of zeros, colour 1, an empty inactive name, no message, the feedback timer at 0, and neither drawing nor erasing |
| SpriteEditor.CanvasCell | main.py:280-284 | a position is on the canvas exactly when it is in [280,1000)x[0,720); its cell is in [0,40)x[0,40), and the cell's 18-pixel square contains the position |
| SpriteEditor.Drag | main.py:301-309 | a drag over the canvas sets exactly the cell under the mouse, to the selected colour when drawing or 0 when erasing; off the canvas nothing changes |
| SpriteEditor.KeyDown | main.py:219-223 | the name changes only while the box is active; Backspace drops the last character (nothing on an empty name), and any other key appends its text |
| SpriteEditor.TypeThenBackspace | main.py:219-223 | typing one character and then Backspace restores the name |
| SpriteEditor.SavePath | main.py:268 | the save path ends in NAME.png; it is characters/NAME.png for a relative name, and just NAME.png for a name starting with "/", as POSIX path joining drops the folder |
| SpriteEditor.Export | main.py:260-275 | an empty name saves nothing and asks for one; a non-empty name saves to its SavePath, reports "Saved as" that path and clears the name; both show the message for 180 frames |
| SpriteEditor.ExportSavesOnce | main.py:260-275 | right after a successful export, a second press saves nothing and asks for a name |
| SpriteEditor.TickTimer | main.py:198-201 | the feedback timer decrements only while positive, so it never goes negative |
| SpriteEditor.MouseDown | main.py:252-290 | only a click on the name box activates it; clear blanks the canvas; only the export button saves, and only it touches the name, message and timer; a palette click selects i+1 for the last button hit and nothing else changes the colour; a canvas press paints or erases exactly the cell under it and starts drawing (button 1) or erasing (button 3); the editor's invariants are kept |
| SpriteEditor.MouseUp | main.py:225-227 | a release stops drawing and erasing and keeps the canvas, colour, name box, name, message and timer |

## Left out

- pygame set-up, the window, fonts, `clock.tick`, `display.update` and all drawing, including `Player.draw`, `World.draw` and its culling, and the editors' `draw_*` functions. They are rendering only.
- File I/O. Level JSON loading is a parsed grid or `None` for the game, and a map from level number to parsed grid for the editor. Level saving, `os.makedirs`, loading the sprite PNG and writing the exported PNG are not modelled. `SpriteEditor.Export` returns the path it would save to.
- Event polling and `pygame.key.get_pressed` are not modelled. Held keys are records of booleans. Clicks arrive already classified by target: `collidepoint` hit-testing and button layout are not modelled, and palette hits are given per button.
- Floating point. The source accumulates 0.8 in a float, which drifts, e.g. 0.8 * 3 is 2.4000000000000004. The model's exact tenths ignore that drift.
- The `while run` loops, game-mode switching between menu and editors, and `print` diagnostics. Single ticks and single events are modelled instead.
- The jump also clears `on_ground` (platformer.py:93). The model does not store that separately: the collision loop clears the flag again (platformer.py:102) before anything reads it.
- Physics.Update: its contract states bounds and the reset alternative. The landing, velocity, wall and free-motion facts are stated by `GroundedAfterUpdate`, `VelocityAfterUpdate`, `WallStops`, `FreeFlight` and `SnapToLastHit`, and the loop-level facts by `ResolveFacts`.
- Physics.Update: its contracts are claimed only for players of positive width and height, which every player built by `Spawn` has (`WellSized`). For a zero-size box pygame never reports a collision, while `Collide` is plain strict overlap.
- Camera.Follow: the bottom dead-zone edge is the integer 504, where the source computes 503.99999999999994. For a player taller than 288 pixels, both vertical tests can fire in one tick, and then the source's camera can differ from the model's. Example: height 300, camera y 100, player y 304, in a world taller than 820 pixels. The source ends at camera y 100, the model at 88.
- Camera.FollowAxis: the camera-moves-iff-outside and inside-afterwards facts are stated only when the player fits the dead zone (at most 512 wide, 288 tall). For a larger player both shifts fire and the second one wins, as written, and nothing is claimed.
- SpriteEditor.MouseDown: requires the editor's own invariants, which hold in every state the editor reaches: a 40x40 canvas, a selected colour in 1..15, a feedback timer of at least 0, and a palette of exactly 15 buttons.
- SpriteEditor.Export: the path is joined the POSIX way, with "/" as the separator. On Windows `os.path.join` uses "\\" and also treats drive letters and "\\" as absolute; that is not modelled.
- SpriteEditor.Drag: requires a 40x40 canvas, which the source always keeps.

=== FILE: camera.dfy ===
/** The game camera of `main()`: a dead-zone follow of the player, then a
    clamp to the world's bounds. */
module Camera {
  import opened Geometry

  /** The dead zone is the middle 30%..70% of the 1280x720 screen. */
  const DeadZoneLeft: int := 384
  const DeadZoneRight: int := 896
  const DeadZoneTop: int := 216
  const DeadZoneBottom: int := 504

  /** Following on one axis. `pos` and `size` are the player's extent, `cam`
      the camera's position, and [lo, hi] the dead zone in screen
      coordinates. Both tests read the player's screen position from before
      either shift; the second shift wins when both fire. */
  function FollowAxis(pos: int, size: int, cam: int, lo: int, hi: int): (c: int)
    ensures size <= hi - lo ==> lo <= pos - c && pos + size - c <= hi
    ensures size <= hi - lo ==> (c == cam <==> lo <= pos - cam && pos + size - cam <= hi)
  {
    var screen := pos - cam;
    var c1 := if screen < lo then pos - lo else cam;
    if screen + size > hi then pos + size - hi else c1
  }

  /** Of all camera positions that put the player in the dead zone, the
      followed one moves the camera least. */
  lemma FollowAxisIsNearest(pos: int, size: int, cam: int, lo: int, hi: int, other: int)
    requires lo <= pos - other && pos + size - other <= hi
    ensures var c := FollowAxis(pos, size, cam, lo, hi);
      (if c <= cam then cam - c else c - cam) <= (if other <= cam then cam - other else other - cam)
  {
  }

  /** The dead-zone follow on both axes; the camera keeps its size. */
  function Follow(player: Rect, cam: Rect): (c: Rect)
    ensures c.w == cam.w && c.h == cam.h
    ensures player.w <= DeadZoneRight - DeadZoneLeft ==>
      DeadZoneLeft <= player.x - c.x && player.Right() - c.x <= DeadZoneRight
    ensures player.h <= DeadZoneBottom - DeadZoneTop ==>
      DeadZoneTop <= player.y - c.y && player.Bottom() - c.y <= DeadZoneBottom
    ensures player.w <= DeadZoneRight - DeadZoneLeft ==>
      (c.x == cam.x <==> DeadZoneLeft <= player.x - cam.x && player.Right() - cam.x <= DeadZoneRight)
    ensures player.h <= DeadZoneBottom - DeadZoneTop ==>
      (c.y == cam.y <==> DeadZoneTop <= player.y - cam.y && player.Bottom() - cam.y <= DeadZoneBottom)
  {
    Rect(FollowAxis(player.x, player.w, cam.x, DeadZoneLeft, DeadZoneRight),
         FollowAxis(player.y, player.h, cam.y, DeadZoneTop, DeadZoneBottom),
         cam.w, cam.h)
  }

  /** Clamping on one axis: first the low edge to 0, then the high edge to
      `bound`. */
  function ClampAxis(pos: int, size: int, bound: int): (c: int)
    ensures size <= bound ==> 0 <= c && c + size <= bound
    ensures 0 <= pos && pos + size <= bound ==> c == pos
    ensures c + size <= bound
    ensures pos < 0 && size <= bound ==> c == 0
    ensures pos + size > bound ==> c == bound - size
  {
    var c1 := if pos < 0 then 0 else pos;
    if c1 + size > bound then bound - size else c1
  }

  /** The clamp to the world, in the order left, top, right, bottom. */
  function ClampToWorld(cam: Rect, worldWidth: int, worldHeight: int): (c: Rect)
    ensures c.w == cam.w && c.h == cam.h
    ensures cam.w <= worldWidth ==> 0 <= c.x && c.Right() <= worldWidth
    ensures cam.h <= worldHeight ==> 0 <= c.y && c.Bottom() <= worldHeight
    ensures 0 <= cam.x && cam.Right() <= worldWidth ==> c.x == cam.x
    ensures 0 <= cam.y && cam.Bottom() <= worldHeight ==> c.y == cam.y
  {
    Rect(ClampAxis(cam.x, cam.w, worldWidth), ClampAxis(cam.y, cam.h, worldHeight), cam.w, cam.h)
  }

  /** One tick of the camera: follow, then clamp. */
  function Track(player: Rect, cam: Rect, worldWidth: int, worldHeight: int): (c: Rect)
    ensures c.w == cam.w && c.h == cam.h
    ensures cam.w <= worldWidth ==> 0 <= c.x && c.Right() <= worldWidth
    ensures cam.h <= worldHeight ==> 0 <= c.y && c.Bottom() <= worldHeight
  {
    ClampToWorld(Follow(player, cam), worldWidth, worldHeight)
  }

  /** Where the world is large enough for it, the clamp leaves a followed
      camera alone and the player ends the tick inside the dead zone. */
  lemma TrackKeepsPlayerInDeadZone(player: Rect, cam: Rect, worldWidth: int, worldHeight: int)
    requires player.w <= DeadZoneRight - DeadZoneLeft && player.h <= DeadZoneBottom - DeadZoneTop
    requires var f := Follow(player, cam);
      0 <= f.x && f.Right() <= worldWidth && 0 <= f.y && f.Bottom() <= worldHeight
    ensures var c := Track(player, cam, worldWidth, worldHeight);
      && DeadZoneLeft <= player.x - c.x && player.Right() - c.x <= DeadZoneRight
      && DeadZoneTop <= player.y - c.y && player.Bottom() - c.y <= DeadZoneBottom
  {
  }
}

=== FILE: geometry.dfy ===
/** Integer rectangles with the semantics of pygame's Rect, shared by the
    game and the editors. */
module Geometry {

  /** A value that may be absent (a missing file, a click outside a canvas). */
  datatype Option<T> = None | Some(value: T)

  /** A rectangle whose top-left corner is (x, y); w and h are its size. */
  datatype Rect = Rect(x: int, y: int, w: int, h: int) {
    function Right(): int { x + w }
    function Bottom(): int { y + h }
  }

  /** pygame's `colliderect` for rectangles of positive size: the two
      rectangles overlap strictly on both axes, so rectangles that only touch
      along an edge do not collide. */
  predicate Collide(a: Rect, b: Rect) {
    a.x < b.Right() && b.x < a.Right() && a.y < b.Bottom() && b.y < a.Bottom()
  }

  /** The conversion pygame applies when a fractional coordinate is stored in
      a Rect, with the coordinate given in tenths of a pixel. The body casts
      toward zero; every proof relies only on the contract: whole pixels are
      kept exactly, and the result is less than one pixel away. */
  function ToPixel(tenths: int): (p: int)
    ensures tenths % 10 == 0 ==> p * 10 == tenths
    ensures -10 < tenths - p * 10 < 10
  {
    if tenths >= 0 then tenths / 10 else -((-tenths) / 10)
  }
}

=== FILE: grids.dfy ===
/** Grids of codes as both editors keep them, and the palette selection
    loop they share. */
module Grids {

  type Grid = seq<seq<int>>

  /** `g` has `rows` rows of `cols` cells each. */
  predicate Shaped(g: Grid, rows: int, cols: int) {
    |g| == rows && forall r :: 0 <= r < |g| ==> |g[r]| == cols
  }

  /** `(row, col)` names a cell that exists in `g`. */
  predicate InGrid(g: Grid, row: int, col: int) {
    0 <= row < |g| && 0 <= col < |g[row]|
  }

  /** `[[0] * cols for _ in range(rows)]`. */
  function Blank(rows: nat, cols: nat): (g: Grid)
    ensures Shaped(g, rows, cols)
    ensures forall r, c :: InGrid(g, r, c) ==> g[r][c] == 0
  {
    seq(rows, _ => seq(cols, _ => 0))
  }

  /** `g[row][col] = v`: that one cell changes, every other cell and the
      shape stay as they were. */
  function SetCell(g: Grid, row: int, col: int, v: int): (g': Grid)
    requires InGrid(g, row, col)
    ensures |g'| == |g| && forall r :: 0 <= r < |g| ==> |g'[r]| == |g[r]|
    ensures g'[row][col] == v
    ensures forall r, c :: InGrid(g, r, c) && (r != row || c != col) ==> g'[r][c] == g[r][c]
  {
    g[row := g[row][col := v]]
  }

  /** The palette loop `for i, btn in enumerate(buttons): if hit: sel = i + 1`,
      with `hits[i]` telling whether button `i` contains the click. */
  function Pick(sel: int, hits: seq<bool>): (r: int)
    ensures (forall i :: 0 <= i < |hits| ==> !hits[i]) ==> r == sel
    ensures (exists i :: 0 <= i < |hits| && hits[i]) ==>
      1 <= r <= |hits| && hits[r - 1] && forall j :: r <= j < |hits| ==> !hits[j]
  {
    if |hits| == 0 then sel
    else if hits[|hits| - 1] then |hits|
    else
      var init := hits[..|hits| - 1];
      assert forall i :: 0 <= i < |init| ==> init[i] == hits[i];
      Pick(sel, init)
  }

  /** A selection in 1..n stays in 1..n through a click on a palette of n
      buttons. */
  lemma PickStaysInRange(sel: int, hits: seq<bool>)
    ensures 1 <= sel <= |hits| ==> 1 <= Pick(sel, hits) <= |hits|
  {
    if exists i :: 0 <= i < |hits| && hits[i] {
    }
  }
}

=== FILE: level_editor.dfy ===
/** The level editor's steps from the event loop of `main.py`: loading and
    navigating levels, panning the camera, and painting cells. */
module LevelEditor {
  import opened Geometry
  import opened Grids

  const GridSize: int := 40
  /** The editing area is the 1280x720 part of the window left of the UI
      panel; the editable level is twice as large on each axis. */
  const ViewWidth: int := 1280
  const ViewHeight: int := 720
  const LevelWidth: int := 2560
  const LevelHeight: int := 1440
  const Rows: int := 36
  const Cols: int := 64
  const CameraSpeed: int := 15
  /** Number of tile kinds in the palette. */
  const TileKinds: int := 7

  /** The parsed level files present on disk, by level number. */
  type Disk = map<int, Grid>

  /** `level` is `current_level`, `selected` is `level_selected_tile`. */
  datatype Editor = Editor(level: int, grid: Grid, camera: Rect, selected: int,
                           drawing: bool, erasing: bool)

  /** What the editor keeps true: a level number of at least 1, a tile kind
      of the palette selected, and a camera the size of the editing area. */
  predicate Valid(e: Editor) {
    && e.level >= 1
    && 1 <= e.selected <= TileKinds
    && e.camera.w == ViewWidth && e.camera.h == ViewHeight
  }

  /** The grid built when no level file exists, and by the reset button. */
  function BlankLevel(): (g: Grid)
    ensures Shaped(g, Rows, Cols)
    ensures forall r, c :: InGrid(g, r, c) ==> g[r][c] == 0
  {
    Blank(LevelHeight / GridSize, LevelWidth / GridSize)
  }

  /** `load_level_data(n)`: the file's grid or a blank one, with the camera
      back at the origin. */
  function LoadLevel(e: Editor, n: int, disk: Disk): (e': Editor)
    ensures e'.level == n
    ensures n in disk ==> e'.grid == disk[n]
    ensures n !in disk ==> e'.grid == BlankLevel()
    ensures e'.camera == Rect(0, 0, e.camera.w, e.camera.h)
    ensures e'.selected == e.selected && e'.drawing == e.drawing && e'.erasing == e.erasing
  {
    var g := if n in disk then disk[n] else BlankLevel();
    e.(level := n, grid := g, camera := Rect(0, 0, e.camera.w, e.camera.h))
  }

  /** The editor as the program starts it: level 1 loaded. */
  function Initial(disk: Disk): (e: Editor)
    ensures Valid(e) && e.level == 1 && !e.drawing && !e.erasing
    ensures e.selected == 1 && e.camera == Rect(0, 0, ViewWidth, ViewHeight)
    ensures 1 in disk ==> e.grid == disk[1]
    ensures 1 !in disk ==> e.grid == BlankLevel()
  {
    LoadLevel(Editor(1, [], Rect(0, 0, ViewWidth, ViewHeight), 1, false, false), 1, disk)
  }

  datatype Key = RightShift | LeftShift | OtherKey

  /** A key press in the level editor: right Shift goes to the next level,
      left Shift to the previous one while there is one. */
  function Navigate(e: Editor, key: Key, disk: Disk): (e': Editor)
    ensures Valid(e) ==> Valid(e')
    ensures key == RightShift ==> e'.level == e.level + 1
    ensures key == LeftShift && e.level > 1 ==> e'.level == e.level - 1
    ensures (key == OtherKey || (key == LeftShift && e.level <= 1)) ==> e' == e
    ensures e'.level != e.level ==> e'.camera.x == 0 && e'.camera.y == 0
    ensures e'.level != e.level ==> e' == LoadLevel(e, e'.level, disk)
  {
    match key
    case RightShift => LoadLevel(e, e.level + 1, disk)
    case LeftShift => if e.level > 1 then LoadLevel(e, e.level - 1, disk) else e
    case OtherKey => e
  }

  /** The held keys the camera reads. */
  datatype PanKeys = PanKeys(ctrl: bool, left: bool, right: bool, up: bool, down: bool)

  /** The pan with Ctrl held: one arrow per tick, in the priority left,
      right, up, down. */
  function Pan(cam: Rect, k: PanKeys): (c: Rect)
    ensures c.w == cam.w && c.h == cam.h
    ensures c.x == cam.x || c.y == cam.y
    ensures c != cam ==> k.ctrl && (k.left || k.right || k.up || k.down)
    ensures c != cam ==> (c.x - cam.x) + (c.y - cam.y) == CameraSpeed || (c.x - cam.x) + (c.y - cam.y) == -CameraSpeed
    ensures k.ctrl && k.left ==> c == cam.(x := cam.x - CameraSpeed)
    ensures k.ctrl && !k.left && k.right ==> c == cam.(x := cam.x + CameraSpeed)
    ensures k.ctrl && !k.left && !k.right && k.up ==> c == cam.(y := cam.y - CameraSpeed)
    ensures k.ctrl && !k.left && !k.right && !k.up && k.down ==> c == cam.(y := cam.y + CameraSpeed)
    ensures !k.ctrl || !(k.left || k.right || k.up || k.down) ==> c == cam
  {
    if !k.ctrl then cam
    else if k.left then cam.(x := cam.x - CameraSpeed)
    else if k.right then cam.(x := cam.x + CameraSpeed)
    else if k.up then cam.(y := cam.y - CameraSpeed)
    else if k.down then cam.(y := cam.y + CameraSpeed)
    else cam
  }

  /** The clamp `left = max(0, left)`, `right = min(2560, right)`,
      `top = max(0, top)`, `bottom = min(1440, bottom)`, in that order. */
  function ClampCamera(cam: Rect): (c: Rect)
    ensures c.w == cam.w && c.h == cam.h
    ensures c.Right() <= LevelWidth && c.Bottom() <= LevelHeight
    ensures cam.w <= LevelWidth ==> 0 <= c.x
    ensures cam.h <= LevelHeight ==> 0 <= c.y
    ensures 0 <= cam.x && cam.Right() <= LevelWidth && 0 <= cam.y && cam.Bottom() <= LevelHeight ==> c == cam
    ensures cam.x < 0 && cam.w <= LevelWidth ==> c.x == 0
    ensures cam.Right() > LevelWidth ==> c.x == LevelWidth - cam.w
    ensures cam.y < 0 && cam.h <= LevelHeight ==> c.y == 0
    ensures cam.Bottom() > LevelHeight ==> c.y == LevelHeight - cam.h
  {
    var x1 := if 0 > cam.x then 0 else cam.x;
    var x2 := (if LevelWidth < x1 + cam.w then LevelWidth else x1 + cam.w) - cam.w;
    var y1 := if 0 > cam.y then 0 else cam.y;
    var y2 := (if LevelHeight < y1 + cam.h then LevelHeight else y1 + cam.h) - cam.h;
    Rect(x2, y2, cam.w, cam.h)
  }

  /** The camera step of one tick: pan, then clamp. From a camera already
      inside the level it moves at most one axis, by at most 15 pixels. */
  function CameraTick(cam: Rect, k: PanKeys): (c: Rect)
    ensures c.w == cam.w && c.h == cam.h
    ensures cam.w <= LevelWidth && cam.h <= LevelHeight ==>
      0 <= c.x && c.Right() <= LevelWidth && 0 <= c.y && c.Bottom() <= LevelHeight
    ensures 0 <= cam.x && cam.Right() <= LevelWidth && 0 <= cam.y && cam.Bottom() <= LevelHeight ==>
      && (c.x == cam.x || c.y == cam.y)
      && -CameraSpeed <= c.x - cam.x <= CameraSpeed && -CameraSpeed <= c.y - cam.y <= CameraSpeed
    ensures !k.ctrl && 0 <= cam.x && cam.Right() <= LevelWidth && 0 <= cam.y && cam.Bottom() <= LevelHeight ==>
      c == cam
  {
    ClampCamera(Pan(cam, k))
  }

  /** The cell under the mouse: the screen position plus the camera offset,
      divided by the tile size and rounded down. */
  function MouseCell(mx: int, my: int, cam: Rect): (cell: (int, int))
    ensures cell.0 * GridSize <= my + cam.y < (cell.0 + 1) * GridSize
    ensures cell.1 * GridSize <= mx + cam.x < (cell.1 + 1) * GridSize
  {
    ((my + cam.y) / GridSize, (mx + cam.x) / GridSize)
  }

  /** The write of a drag step, or the IndexError raised when a loaded grid
      is smaller than 36x64 and the mouse is over a cell it lacks. */
  datatype PaintResult = Painted(editor: Editor) | IndexError

  /** The continuous drawing and erasing of one tick, with the mouse at
      (mx, my). */
  function Paint(e: Editor, mx: int, my: int): (res: PaintResult)
    ensures var cell := MouseCell(mx, my, e.camera);
      var writes := (e.drawing || e.erasing) && mx < ViewWidth
                    && 0 <= cell.0 < Rows && 0 <= cell.1 < Cols;
      && (res.IndexError? <==> writes && !InGrid(e.grid, cell.0, cell.1))
      && (res.Painted? && !writes ==> res.editor == e)
      && (res.Painted? && writes ==>
            && res.editor == e.(grid := res.editor.grid)
            && |res.editor.grid| == |e.grid|
            && (forall r :: 0 <= r < |e.grid| ==> |res.editor.grid[r]| == |e.grid[r]|)
            && res.editor.grid[cell.0][cell.1] == (if e.drawing then e.selected else 0)
            && (forall r, c :: InGrid(e.grid, r, c) && (r, c) != cell ==>
                  res.editor.grid[r][c] == e.grid[r][c]))
  {
    if (e.drawing || e.erasing) && mx < ViewWidth then
      var (row, col) := MouseCell(mx, my, e.camera);
      if 0 <= row < Rows && 0 <= col < Cols then
        if InGrid(e.grid, row, col) then
          Painted(e.(grid := SetCell(e.grid, row, col, if e.drawing then e.selected else 0)))
        else IndexError
      else Painted(e)
    else Painted(e)
  }

  /** On a grid of the editor's own shape, painting never fails. */
  lemma PaintShapedNeverFails(e: Editor, mx: int, my: int)
    requires Shaped(e.grid, Rows, Cols)
    ensures Paint(e, mx, my).Painted?
    ensures Shaped(Paint(e, mx, my).editor.grid, Rows, Cols)
  {
  }

  /** Where a click in the editor window lands. Hit-testing of the buttons
      is left to the caller. */
  datatype Target = MenuButton | SaveButton | ResetButton | Palette(hits: seq<bool>) | World

  /** A mouse-button press: the palette picks a tile kind, the reset button
      blanks the grid, and a press in the world starts drawing (button 1)
      or erasing (button 3). */
  function MouseDown(e: Editor, t: Target, button: int): (e': Editor)
    requires t.Palette? ==> |t.hits| == TileKinds
    ensures Valid(e) ==> Valid(e')
    ensures e'.level == e.level && e'.camera == e.camera
    ensures t == ResetButton ==> Shaped(e'.grid, Rows, Cols) && e' == e.(grid := BlankLevel())
    ensures t != ResetButton ==> e'.grid == e.grid
    ensures e'.drawing == (e.drawing || (t.World? && button == 1))
    ensures e'.erasing == (e.erasing || (t.World? && button == 3))
    ensures t.Palette? ==> e'.selected == Pick(e.selected, t.hits)
    ensures !t.Palette? ==> e'.selected == e.selected
  {
    match t
    case MenuButton => e
    case SaveButton => e
    case ResetButton => e.(grid := BlankLevel())
    case Palette(hits) =>
      PickStaysInRange(e.selected, hits);
      e.(selected := Pick(e.selected, hits))
    case World =>
      if button == 1 then e.(drawing := true)
      else if button == 3 then e.(erasing := true)
      else e
  }

  /** A mouse-button release ends drawing and erasing. */
  function MouseUp(e: Editor): (e': Editor)
    ensures !e'.drawing && !e'.erasing
    ensures e'.level == e.level && e'.grid == e.grid && e'.camera == e.camera && e'.selected == e.selected
  {
    e.(drawing := false, erasing := false)
  }
}

=== FILE: physics.dfy ===
/** The player's per-tick physics: input, jump, gravity, the collision loop
    over the world's tiles, the world-edge clamps and death.

    Vertical velocity and the vertical step are held in tenths of a pixel, so
    the source's gravity of 0.8 px/tick is `Gravity == 8` here. Positions are
    whole pixels, as in a pygame Rect. */
module Physics {
  import opened Geometry
  import opened Grids
  import opened TileWorld

  const Speed: int := 7
  const JumpPower: int := -180
  const Gravity: int := 8
  const TerminalVelocity: int := 150
  /** Size of the placeholder drawn when the sprite file is missing. */
  const FallbackSpriteSize: int := 40
  /** Where `main()` places the player. */
  const StartX: int := 100
  const StartY: int := 520

  /** The keys sampled at the start of a tick. */
  datatype Keys = Keys(left: bool, a: bool, right: bool, d: bool,
                       space: bool, up: bool, w: bool)
  {
    predicate WantsLeft() { left || a }
    predicate WantsRight() { right || d }
    predicate WantsJump() { space || up || w }
  }

  /** The sprite file: loaded with its size, or missing. */
  datatype Sprite = Loaded(width: int, height: int) | Missing

  /** `rect` is the player's bounding box; `velY` is in tenths of a pixel. */
  datatype Player = Player(rect: Rect, startX: int, startY: int, velY: int, onGround: bool)

  /** A player whose box has positive size. */
  predicate WellSized(p: Player) {
    p.rect.w > 0 && p.rect.h > 0
  }

  /** `Player.__init__`: the box takes the sprite's size, or 40x40 without one. */
  function Spawn(x: int, y: int, sprite: Sprite): (p: Player)
    requires sprite.Loaded? ==> sprite.width > 0 && sprite.height > 0
    ensures WellSized(p)
    ensures p.rect.x == x && p.rect.y == y && p.startX == x && p.startY == y
    ensures p.velY == 0 && !p.onGround
    ensures sprite.Missing? ==> p.rect.w == FallbackSpriteSize && p.rect.h == FallbackSpriteSize
    ensures sprite.Loaded? ==> p.rect.w == sprite.width && p.rect.h == sprite.height
  {
    var (w, h) := match sprite
      case Loaded(sw, sh) => (sw, sh)
      case Missing => (FallbackSpriteSize, FallbackSpriteSize);
    Player(Rect(x, y, w, h), x, y, 0, false)
  }

  /** `Player.reset`: back to the start, at rest and airborne. */
  function Reset(p: Player): (q: Player)
    ensures q.rect.x == p.startX && q.rect.y == p.startY
    ensures q.rect.w == p.rect.w && q.rect.h == p.rect.h
    ensures q.startX == p.startX && q.startY == p.startY
    ensures q.velY == 0 && !q.onGround
  {
    Player(Rect(p.startX, p.startY, p.rect.w, p.rect.h), p.startX, p.startY, 0, false)
  }

  /** Resetting twice is resetting once, whatever state the player was in. */
  lemma ResetIdempotent(p: Player)
    ensures Reset(Reset(p)) == Reset(p)
  {
  }

  /** The horizontal step chosen from the held keys. */
  function Intent(k: Keys): (dx: int)
    ensures dx == -Speed || dx == 0 || dx == Speed
    ensures dx == -Speed <==> k.WantsLeft() && !k.WantsRight()
    ensures dx == Speed <==> k.WantsRight() && !k.WantsLeft()
  {
    (if k.WantsLeft() then -Speed else 0) + (if k.WantsRight() then Speed else 0)
  }

  /** The jump, then gravity with terminal velocity: the velocity in tenths
      of a pixel that the collision loop starts from. */
  function Accelerate(p: Player, k: Keys): (v: int)
    ensures v <= TerminalVelocity
    ensures k.WantsJump() && p.onGround ==> v == JumpPower + Gravity
    ensures !(k.WantsJump() && p.onGround) && p.velY + Gravity <= TerminalVelocity ==>
      v == p.velY + Gravity
    ensures !(k.WantsJump() && p.onGround) && p.velY + Gravity > TerminalVelocity ==>
      v == TerminalVelocity
  {
    var v0 := if k.WantsJump() && p.onGround then JumpPower else p.velY;
    if v0 + Gravity > TerminalVelocity then TerminalVelocity else v0 + Gravity
  }

  // ---------------------------------------------------------------------
  // The collision loop

  /** The values the collision loop reads and writes: `dx` in pixels, `dy`
      and `velY` in tenths of a pixel, and the grounded flag. */
  datatype Motion = Motion(dx: int, dy: int, velY: int, onGround: bool)

  /** The box tested for the horizontal step: moved by `dx`, at the old y. */
  function XProbe(r: Rect, m: Motion): Rect {
    Rect(r.x + m.dx, r.y, r.w, r.h)
  }

  /** The box tested for the vertical step: moved by `dy`, at the old x. */
  function YProbe(r: Rect, m: Motion): Rect {
    Rect(r.x, ToPixel(10 * r.y + m.dy), r.w, r.h)
  }

  /** The horizontal test against one tile. */
  function StepX(r: Rect, t: Rect, m: Motion): (m': Motion)
    ensures m' == m.(dx := m'.dx)
    ensures Collide(t, XProbe(r, m)) ==> m'.dx == 0
    ensures !Collide(t, XProbe(r, m)) ==> m' == m
  {
    if Collide(t, XProbe(r, m)) then m.(dx := 0) else m
  }

  /** The vertical test against one tile: a head-bump snaps the top to the
      tile's bottom, anything else lands the player on the tile's top. */
  function StepY(r: Rect, t: Rect, m: Motion): (m': Motion)
    ensures m'.dx == m.dx
    ensures !Collide(t, YProbe(r, m)) ==> m' == m
    ensures Collide(t, YProbe(r, m)) ==> m'.velY == 0 && m'.dy % 10 == 0
    ensures Collide(t, YProbe(r, m)) && m.velY < 0 ==>
      m'.onGround == m.onGround && Move(r, m').y == t.Bottom()
    ensures Collide(t, YProbe(r, m)) && m.velY >= 0 ==>
      m'.onGround && Move(r, m').Bottom() == t.y
  {
    if !Collide(t, YProbe(r, m)) then m
    else if m.velY < 0 then m.(dy := 10 * (t.Bottom() - r.y), velY := 0)
    else m.(dy := 10 * (t.y - r.Bottom()), velY := 0, onGround := true)
  }

  /** One iteration of the loop: the X test, then the Y test, each reading
      the values left by everything before it. */
  function StepTile(r: Rect, t: Rect, m: Motion): Motion {
    StepY(r, t, StepX(r, t, m))
  }

  /** The loop over the tiles in list order (a left fold). */
  function Resolve(r: Rect, ts: seq<Rect>, m: Motion): (m': Motion)
    ensures m.onGround ==> m'.onGround
    ensures m'.velY == m.velY || m'.velY == 0
  {
    if |ts| == 0 then m
    else StepTile(r, ts[|ts| - 1], Resolve(r, ts[..|ts| - 1], m))
  }

  /** A Y test that fired: the tile, and whether it took the downward branch. */
  datatype Hit = Hit(tile: Rect, downward: bool)

  /** The Y tests that fire during the loop, in order. */
  function YHits(r: Rect, ts: seq<Rect>, m: Motion): seq<Hit>
  {
    if |ts| == 0 then []
    else
      var t := ts[|ts| - 1];
      var before := StepX(r, t, Resolve(r, ts[..|ts| - 1], m));
      YHits(r, ts[..|ts| - 1], m)
      + (if Collide(t, YProbe(r, before)) then [Hit(t, before.velY >= 0)] else [])
  }

  /** The vertical step a hit snaps to. */
  function SnapDy(r: Rect, h: Hit): int {
    if h.downward then 10 * (h.tile.y - r.Bottom()) else 10 * (h.tile.Bottom() - r.y)
  }

  /** The last iteration of the loop, unfolded. */
  lemma Unfold(r: Rect, ts: seq<Rect>, m: Motion)
    requires |ts| > 0
    ensures var n := |ts| - 1;
      var mx := StepX(r, ts[n], Resolve(r, ts[..n], m));
      && Resolve(r, ts, m) == StepY(r, ts[n], mx)
      && YHits(r, ts, m) == YHits(r, ts[..n], m)
           + (if Collide(ts[n], YProbe(r, mx)) then [Hit(ts[n], mx.velY >= 0)] else [])
  {
  }

  /** Horizontal motion is kept or cancelled, and once cancelled it stays so. */
  lemma {:induction false} ResolveHorizontal(r: Rect, ts: seq<Rect>, m: Motion)
    ensures Resolve(r, ts, m).dx == m.dx || Resolve(r, ts, m).dx == 0
    ensures m.dx == 0 ==> Resolve(r, ts, m).dx == 0
  {
    if |ts| > 0 {
      ResolveHorizontal(r, ts[..|ts| - 1], m);
      Unfold(r, ts, m);
    }
  }

  /** The loop cancels horizontal motion exactly when some tile meets the
      box moved by the starting `dx`: once `dx` is 0 the X probe no longer
      moves, so it cannot be restored. */
  lemma {:induction false} ResolveBlocked(r: Rect, ts: seq<Rect>, m: Motion)
    ensures Resolve(r, ts, m).dx == 0 <==>
      m.dx == 0 || exists t :: t in ts && Collide(t, XProbe(r, m))
  {
    if |ts| > 0 {
      var n := |ts| - 1;
      var init := ts[..n];
      ResolveBlocked(r, init, m);
      ResolveHorizontal(r, init, m);
      Unfold(r, ts, m);
      assert ts == init + [ts[n]];
      assert forall t :: t in ts <==> t in init || t == ts[n];
      if Resolve(r, init, m).dx != 0 {
        assert XProbe(r, Resolve(r, init, m)) == XProbe(r, m);
      }
    }
  }

  /** No Y test fires exactly when no tile meets the box moved by the
      starting `dy`. */
  lemma {:induction false} ResolveNoHits(r: Rect, ts: seq<Rect>, m: Motion)
    ensures |YHits(r, ts, m)| == 0 <==> forall t :: t in ts ==> !Collide(t, YProbe(r, m))
  {
    if |ts| > 0 {
      var n := |ts| - 1;
      var init := ts[..n];
      ResolveNoHits(r, init, m);
      ResolveVertical(r, init, m);
      Unfold(r, ts, m);
      assert ts == init + [ts[n]];
      assert forall t :: t in ts <==> t in init || t == ts[n];
      if |YHits(r, init, m)| == 0 {
        var mx := StepX(r, ts[n], Resolve(r, init, m));
        assert YProbe(r, mx) == YProbe(r, m);
      }
    }
  }

  /** With no hit the vertical values are untouched; otherwise the last hit
      decides the step and the velocity is zero. */
  lemma {:induction false} ResolveVertical(r: Rect, ts: seq<Rect>, m: Motion)
    ensures |YHits(r, ts, m)| == 0 ==>
      var m' := Resolve(r, ts, m);
      m'.dy == m.dy && m'.velY == m.velY && m'.onGround == m.onGround
    ensures |YHits(r, ts, m)| > 0 ==>
      var m' := Resolve(r, ts, m);
      var hs := YHits(r, ts, m);
      m'.velY == 0 && m'.dy == SnapDy(r, hs[|hs| - 1])
  {
    if |ts| > 0 {
      ResolveVertical(r, ts[..|ts| - 1], m);
      Unfold(r, ts, m);
    }
  }

  /** After the first hit every further hit is downward, and all are when
      the loop starts at rest or falling. */
  lemma {:induction false} LaterHitsDownward(r: Rect, ts: seq<Rect>, m: Motion)
    ensures forall i :: 0 < i < |YHits(r, ts, m)| ==> YHits(r, ts, m)[i].downward
    ensures m.velY >= 0 ==> forall i :: 0 <= i < |YHits(r, ts, m)| ==> YHits(r, ts, m)[i].downward
  {
    if |ts| > 0 {
      var init := ts[..|ts| - 1];
      LaterHitsDownward(r, init, m);
      ResolveVertical(r, init, m);
      Unfold(r, ts, m);
    }
  }

  /** The flag ends set exactly when it started set or some hit was downward. */
  lemma {:induction false} ResolveGrounded(r: Rect, ts: seq<Rect>, m: Motion)
    ensures Resolve(r, ts, m).onGround <==>
      m.onGround || exists i :: 0 <= i < |YHits(r, ts, m)| && YHits(r, ts, m)[i].downward
  {
    if |ts| > 0 {
      var init := ts[..|ts| - 1];
      ResolveGrounded(r, init, m);
      Unfold(r, ts, m);
      var hs0 := YHits(r, init, m);
      var hs := YHits(r, ts, m);
      var n := |ts| - 1;
      var mx := StepX(r, ts[n], Resolve(r, init, m));
      assert forall i :: 0 <= i < |hs0| ==> hs[i] == hs0[i];
      if Collide(ts[n], YProbe(r, mx)) && mx.velY >= 0 {
        assert hs[|hs| - 1].downward;
      } else {
        assert Resolve(r, ts, m).onGround == Resolve(r, init, m).onGround;
        assert forall i :: 0 <= i < |hs| && hs[i].downward ==> i < |hs0|;
      }
    }
  }

  /** Every hit is against a tile of the list. */
  lemma {:induction false} HitsFromTiles(r: Rect, ts: seq<Rect>, m: Motion)
    ensures forall i :: 0 <= i < |YHits(r, ts, m)| ==> YHits(r, ts, m)[i].tile in ts
  {
    if |ts| > 0 {
      var init := ts[..|ts| - 1];
      HitsFromTiles(r, init, m);
      Unfold(r, ts, m);
      var hs0 := YHits(r, init, m);
      var hs := YHits(r, ts, m);
      forall i | 0 <= i < |hs|
        ensures hs[i].tile in ts
      {
        if i < |hs0| {
          assert hs[i] == hs0[i];
          assert hs0[i].tile in init;
        }
      }
    }
  }

  /** What the loop leaves behind, in terms of the Y tests that fired:
      horizontal motion is kept or cancelled and never restored; with no hit
      the vertical values are untouched; otherwise the last hit decides the
      step and the velocity is zero; the flag is set exactly by a downward
      hit; and after the first hit every further hit is downward. */
  lemma {:induction false} ResolveFacts(r: Rect, ts: seq<Rect>, m: Motion)
    ensures var m' := Resolve(r, ts, m); m'.dx == m.dx || m'.dx == 0
    ensures m.dx == 0 ==> Resolve(r, ts, m).dx == 0
    ensures Resolve(r, ts, m).dx == 0 <==>
      m.dx == 0 || exists t :: t in ts && Collide(t, XProbe(r, m))
    ensures |YHits(r, ts, m)| == 0 <==> forall t :: t in ts ==> !Collide(t, YProbe(r, m))
    ensures |YHits(r, ts, m)| == 0 ==>
      var m' := Resolve(r, ts, m);
      m'.dy == m.dy && m'.velY == m.velY && m'.onGround == m.onGround
    ensures |YHits(r, ts, m)| > 0 ==>
      var m' := Resolve(r, ts, m);
      var hs := YHits(r, ts, m);
      m'.velY == 0 && m'.dy == SnapDy(r, hs[|hs| - 1])
    ensures Resolve(r, ts, m).onGround <==>
      m.onGround || exists i :: 0 <= i < |YHits(r, ts, m)| && YHits(r, ts, m)[i].downward
    ensures forall i :: 0 < i < |YHits(r, ts, m)| ==> YHits(r, ts, m)[i].downward
    ensures m.velY >= 0 ==> forall i :: 0 <= i < |YHits(r, ts, m)| ==> YHits(r, ts, m)[i].downward
    ensures forall i :: 0 <= i < |YHits(r, ts, m)| ==> YHits(r, ts, m)[i].tile in ts
  {
    ResolveHorizontal(r, ts, m);
    ResolveBlocked(r, ts, m);
    ResolveNoHits(r, ts, m);
    ResolveVertical(r, ts, m);
    LaterHitsDownward(r, ts, m);
    ResolveGrounded(r, ts, m);
    HitsFromTiles(r, ts, m);
  }

  /** With no tile in the way of either probe, the loop changes nothing. */
  lemma {:induction false} ResolveUnobstructed(r: Rect, ts: seq<Rect>, m: Motion)
    requires forall t :: t in ts ==> !Collide(t, XProbe(r, m)) && !Collide(t, YProbe(r, m))
    ensures Resolve(r, ts, m) == m
    ensures YHits(r, ts, m) == []
  {
    if |ts| > 0 {
      var init := ts[..|ts| - 1];
      assert forall t :: t in init ==> t in ts;
      ResolveUnobstructed(r, init, m);
    }
  }

  /** The box after the loop's final `dx` and `dy` are applied. */
  function Move(r: Rect, m: Motion): (r': Rect)
    ensures r'.w == r.w && r'.h == r.h && r'.x == r.x + m.dx
    ensures m.dy % 10 == 0 ==> 10 * r'.y == 10 * r.y + m.dy
    ensures -10 < 10 * r.y + m.dy - 10 * r'.y < 10
  {
    Rect(r.x + m.dx, ToPixel(10 * r.y + m.dy), r.w, r.h)
  }

  /** After the loop the box rests against the tile of the last hit: on its
      top after a downward hit, under its bottom after a head-bump. */
  lemma {:induction false} SnapToLastHit(r: Rect, ts: seq<Rect>, m: Motion)
    requires |YHits(r, ts, m)| > 0
    ensures var h := YHits(r, ts, m)[|YHits(r, ts, m)| - 1];
      && (h.downward ==> Move(r, Resolve(r, ts, m)).Bottom() == h.tile.y)
      && (!h.downward ==> Move(r, Resolve(r, ts, m)).y == h.tile.Bottom())
    ensures !m.onGround ==>
      (Resolve(r, ts, m).onGround <==> YHits(r, ts, m)[|YHits(r, ts, m)| - 1].downward)
  {
    ResolveFacts(r, ts, m);
  }

  // ---------------------------------------------------------------------
  // World edges, death and the whole tick

  /** The world-edge clamps, applied left, right, top in that order. There
      is no clamp at the bottom. Returns the box and the velocity. */
  function ClampToEdges(r: Rect, velY: int, worldWidth: int): (res: (Rect, int))
    ensures res.0.w == r.w && res.0.h == r.h
    ensures res.0.y == if r.y < 0 then 0 else r.y
    ensures r.x < 0 && r.w <= worldWidth ==> res.0.x == 0
    ensures r.Right() > worldWidth ==> res.0.x == worldWidth - r.w
    ensures res.0.Right() <= worldWidth
    ensures r.w <= worldWidth ==> res.0.x >= 0
    ensures 0 <= r.x && r.Right() <= worldWidth ==> res.0.x == r.x
    ensures res.1 == if r.y < 0 then 0 else velY
  {
    var x1 := if r.x < 0 then 0 else r.x;
    var x2 := if x1 + r.w > worldWidth then worldWidth - r.w else x1;
    if r.y < 0 then (Rect(x2, 0, r.w, r.h), 0) else (Rect(x2, r.y, r.w, r.h), velY)
  }

  /** The motion the collision loop starts from. */
  function StartMotion(p: Player, k: Keys): Motion {
    var v := Accelerate(p, k);
    Motion(Intent(k), v, v, false)
  }

  /** The tick does not end in death: after the edge clamps the box is not
      below the bottom of the world. */
  predicate Survives(p: Player, k: Keys, world: World) {
    var m := Resolve(p.rect, world.tiles, StartMotion(p, k));
    ClampToEdges(Move(p.rect, m), m.velY, world.pixelWidth).0.Bottom() <= world.pixelHeight
  }

  /** `Player.update`: one tick of the player against the world. */
  function Update(p: Player, k: Keys, world: World): (q: Player)
    ensures q.startX == p.startX && q.startY == p.startY
    ensures q.rect.w == p.rect.w && q.rect.h == p.rect.h
    ensures q.velY <= TerminalVelocity
    ensures p.velY >= JumpPower ==> q.velY >= JumpPower + Gravity
    ensures q == Reset(p) || (&& 0 <= q.rect.y && q.rect.Bottom() <= world.pixelHeight
                              && q.rect.Right() <= world.pixelWidth
                              && (p.rect.w <= world.pixelWidth ==> 0 <= q.rect.x))
  {
    var m := Resolve(p.rect, world.tiles, StartMotion(p, k));
    ResolveFacts(p.rect, world.tiles, StartMotion(p, k));
    var (r, v) := ClampToEdges(Move(p.rect, m), m.velY, world.pixelWidth);
    if r.Bottom() > world.pixelHeight then Reset(p)
    else Player(r, p.startX, p.startY, v, m.onGround)
  }

  /** A surviving tick leaves the player grounded exactly when the last tile
      hit in the loop was hit from above, and then standing on that tile
      unless the top clamp pushed it down (a tile less than one player height
      below the top of the world). */
  lemma GroundedAfterUpdate(p: Player, k: Keys, world: World)
    requires Survives(p, k, world)
    ensures var hs := YHits(p.rect, world.tiles, StartMotion(p, k));
      && (Update(p, k, world).onGround <==> |hs| > 0 && hs[|hs| - 1].downward)
      && (Update(p, k, world).onGround && hs[|hs| - 1].tile.y >= p.rect.h ==>
            Update(p, k, world).rect.Bottom() == hs[|hs| - 1].tile.y)
      && (|hs| > 0 ==> Update(p, k, world).velY == 0)
  {
    var m0 := StartMotion(p, k);
    ResolveFacts(p.rect, world.tiles, m0);
    if |YHits(p.rect, world.tiles, m0)| > 0 {
      SnapToLastHit(p.rect, world.tiles, m0);
    }
  }

  /** The velocity a surviving tick leaves behind: 0 after any fired Y
      test or a bump against the top of the world, and otherwise the
      velocity gravity gave it. */
  lemma VelocityAfterUpdate(p: Player, k: Keys, world: World)
    requires Survives(p, k, world)
    ensures var m := Resolve(p.rect, world.tiles, StartMotion(p, k));
      var hs := YHits(p.rect, world.tiles, StartMotion(p, k));
      && (Move(p.rect, m).y < 0 ==> Update(p, k, world).rect.y == 0 && Update(p, k, world).velY == 0)
      && (|hs| > 0 ==> Update(p, k, world).velY == 0)
      && (|hs| == 0 && Move(p.rect, m).y >= 0 ==> Update(p, k, world).velY == Accelerate(p, k))
  {
    ResolveFacts(p.rect, world.tiles, StartMotion(p, k));
  }

  /** Walking into a tile: when some tile meets the box moved by the
      intended step, a surviving tick leaves the player's x where it was
      (away from the world's side edges, where the clamps could move it). */
  lemma WallStops(p: Player, k: Keys, world: World)
    requires exists t :: t in world.tiles && Collide(t, XProbe(p.rect, StartMotion(p, k)))
    requires 0 <= p.rect.x && p.rect.Right() <= world.pixelWidth
    requires Survives(p, k, world)
    ensures Update(p, k, world).rect.x == p.rect.x
  {
    ResolveBlocked(p.rect, world.tiles, StartMotion(p, k));
  }

  /** With no tile in the way and no edge reached, the player moves by
      exactly the intended step and keeps the velocity gravity gave it. */
  lemma FreeFlight(p: Player, k: Keys, world: World)
    requires forall t :: t in world.tiles ==>
      !Collide(t, XProbe(p.rect, StartMotion(p, k))) && !Collide(t, YProbe(p.rect, StartMotion(p, k)))
    requires var r := Move(p.rect, StartMotion(p, k));
      0 <= r.x && r.Right() <= world.pixelWidth && 0 <= r.y && r.Bottom() <= world.pixelHeight
    ensures Update(p, k, world).rect == Move(p.rect, StartMotion(p, k))
    ensures Update(p, k, world).velY == Accelerate(p, k)
    ensures !Update(p, k, world).onGround
  {
    ResolveUnobstructed(p.rect, world.tiles, StartMotion(p, k));
  }

  /** Falling off the bottom of the world sends the player back to the start
      with no velocity, whatever the state before. */
  lemma DeathResets(p: Player, k: Keys, world: World)
    requires !Survives(p, k, world)
    ensures var q := Update(p, k, world);
      q.rect.x == p.startX && q.rect.y == p.startY && q.velY == 0 && !q.onGround
  {
  }

  /** Holding jump while airborne never triggers a jump: the tick is the same
      as with the jump keys released. */
  lemma NoAirJump(p: Player, k: Keys, world: World)
    requires !p.onGround
    ensures Update(p, k, world) == Update(p, k.(space := false, up := false, w := false), world)
  {
  }

  /** The start of a game in `main()`: the level, the player at (100, 520)
      and the camera at the origin. */
  function NewGame(level: Option<Grid>, sprite: Sprite): (res: (World, Player, Rect))
    requires sprite.Loaded? ==> sprite.width > 0 && sprite.height > 0
    ensures res.1.rect.x == StartX && res.1.rect.y == StartY && WellSized(res.1)
    ensures res.1.startX == StartX && res.1.startY == StartY
    ensures res.0 == Load(level)
    ensures res.1.velY == 0 && !res.1.onGround
    ensures level.None? ==> |res.0.tiles| == FallbackTileCount && res.0.pixelHeight == ScreenHeight
    ensures level.Some? ==> forall t :: t in res.0.tiles <==> IsSolidCellTile(level.value, t)
    ensures res.2 == Rect(0, 0, ScreenWidth, ScreenHeight)
  {
    (Load(level), Spawn(StartX, StartY, sprite), Rect(0, 0, ScreenWidth, ScreenHeight))
  }
}

=== FILE: sprite_editor.dfy ===
/** The sprite editor's steps from the event loop of `main.py`: painting the
    40x40 canvas, editing the file name, and the export with its feedback
    message. */
module SpriteEditor {
  import opened Geometry
  import opened Grids

  /** The canvas has 40x40 cells of 18 pixels, centred left of the UI panel:
      it spans [280, 1000) horizontally and [0, 720) vertically. */
  const Dim: int := 40
  const CellSize: int := 18
  const CanvasX: int := 280
  const CanvasY: int := 0
  const CanvasSize: int := 720
  /** Frames a feedback message stays on screen: 3 seconds at 60 frames per second. */
  const FeedbackFrames: int := 180
  /** Number of colours in the palette. */
  const ColourCount: int := 15
  const Folder: string := "characters"
  const EmptyNameMessage: string := "Enter filename!"

  datatype Editor = Editor(grid: Grid, selected: int, inputActive: bool, filename: string,
                           message: string, timer: int, drawing: bool, erasing: bool)

  /** What the editor keeps true: a 40x40 canvas, a palette colour selected,
      and a timer that is never negative. */
  predicate Valid(e: Editor) {
    Shaped(e.grid, Dim, Dim) && 1 <= e.selected <= ColourCount && e.timer >= 0
  }

  /** The editor as the program starts it. */
  function Initial(): (e: Editor)
    ensures Valid(e) && e.filename == "" && !e.inputActive && e.timer == 0
    ensures forall r, c :: InGrid(e.grid, r, c) ==> e.grid[r][c] == 0
    ensures e.selected == 1 && e.message == "" && !e.drawing && !e.erasing
  {
    Editor(Blank(Dim, Dim), 1, false, "", "", 0, false, false)
  }

  /** The canvas cell under the mouse, if the mouse is over the canvas. */
  function CanvasCell(mx: int, my: int): (cell: Option<(int, int)>)
    ensures cell.Some? <==> CanvasX <= mx < CanvasX + CanvasSize && CanvasY <= my < CanvasY + CanvasSize
    ensures cell.Some? ==> 0 <= cell.value.0 < Dim && 0 <= cell.value.1 < Dim
    ensures cell.Some? ==>
      && CanvasY + cell.value.0 * CellSize <= my < CanvasY + (cell.value.0 + 1) * CellSize
      && CanvasX + cell.value.1 * CellSize <= mx < CanvasX + (cell.value.1 + 1) * CellSize
  {
    if CanvasX <= mx < CanvasX + CanvasSize && CanvasY <= my < CanvasY + CanvasSize
    then Some(((my - CanvasY) / CellSize, (mx - CanvasX) / CellSize))
    else None
  }

  /** The continuous drawing and erasing of one tick, with the mouse at
      (mx, my): exactly the cell under the mouse takes the selected colour
      (drawing) or 0 (erasing); nothing changes off the canvas. */
  function Drag(e: Editor, mx: int, my: int): (e': Editor)
    requires Shaped(e.grid, Dim, Dim)
    ensures e' == e.(grid := e'.grid)
    ensures Shaped(e'.grid, Dim, Dim)
    ensures !(e.drawing || e.erasing) || CanvasCell(mx, my).None? ==> e' == e
    ensures (e.drawing || e.erasing) && CanvasCell(mx, my).Some? ==>
      var (row, col) := CanvasCell(mx, my).value;
      && e'.grid[row][col] == (if e.drawing then e.selected else 0)
      && forall r, c :: InGrid(e.grid, r, c) && (r, c) != (row, col) ==> e'.grid[r][c] == e.grid[r][c]
  {
    if e.drawing || e.erasing then
      match CanvasCell(mx, my)
      case None => e
      case Some((row, col)) =>
        e.(grid := SetCell(e.grid, row, col, if e.drawing then e.selected else 0))
    else e
  }

  datatype Key = Backspace | Text(s: string)

  /** A key press in the sprite editor: while the name box is active,
      Backspace drops the last character and any other key appends its text. */
  function KeyDown(e: Editor, key: Key): (e': Editor)
    ensures e' == e.(filename := e'.filename)
    ensures !e.inputActive ==> e' == e
    ensures e.inputActive && key == Backspace ==>
      e.filename == e'.filename + (if |e.filename| == 0 then "" else [e.filename[|e.filename| - 1]])
    ensures e.inputActive && key.Text? ==>
      && |e'.filename| == |e.filename| + |key.s|
      && e'.filename[..|e.filename|] == e.filename
      && e'.filename[|e.filename|..] == key.s
  {
    if !e.inputActive then e
    else match key
      case Backspace =>
        e.(filename := if |e.filename| == 0 then "" else e.filename[..|e.filename| - 1])
      case Text(s) => e.(filename := e.filename + s)
  }

  /** Typing a character and then Backspace restores the name. */
  lemma TypeThenBackspace(e: Editor, ch: char)
    requires e.inputActive
    ensures KeyDown(KeyDown(e, Text([ch])), Backspace) == e
  {
    assert (e.filename + [ch])[..|e.filename|] == e.filename;
  }

  /** `os.path.join("characters", name + ".png")` with POSIX joining: the
      folder is dropped when the name is absolute (starts with "/"). */
  function SavePath(name: string): (p: string)
    ensures |p| >= |name| + 4 && p[|p| - |name| - 4..] == name + ".png"
    ensures |p| > 0 && p[0] == '/' <==> |name| > 0 && name[0] == '/'
    ensures |name| > 0 && name[0] == '/' ==> |p| == |name| + 4
    ensures !(|name| > 0 && name[0] == '/') ==>
      && |p| == |Folder| + 1 + |name| + 4
      && p[..|Folder| + 1] == Folder + "/"
  {
    if |name| > 0 && name[0] == '/' then name + ".png" else Folder + "/" + name + ".png"
  }

  /** The outcome of the export button: the new editor state and the path
      the sprite was saved under, if it was saved. */
  datatype ExportResult = ExportResult(editor: Editor, saved: Option<string>)

  /** The export button: without a file name nothing is saved and the user
      is told to enter one; otherwise the sprite is saved under
      `SavePath(name)` and the name is cleared. Either way the
      message is shown for 180 frames. */
  function Export(e: Editor): (res: ExportResult)
    ensures res.editor.timer == FeedbackFrames
    ensures res.editor.grid == e.grid && res.editor.selected == e.selected
    ensures e.filename == "" <==> res.saved.None?
    ensures e.filename == "" ==> res.editor.message == EmptyNameMessage && res.editor.filename == ""
    ensures e.filename != "" ==>
      && res.saved == Some(SavePath(e.filename))
      && res.editor.message == "Saved as " + res.saved.value
      && res.editor.filename == ""
  {
    if e.filename != "" then
      var path := SavePath(e.filename);
      ExportResult(e.(message := "Saved as " + path, timer := FeedbackFrames, filename := ""), Some(path))
    else
      ExportResult(e.(message := EmptyNameMessage, timer := FeedbackFrames), None)
  }

  /** A second press of the export button right after a successful export
      saves nothing: the name was cleared by the first. */
  lemma ExportSavesOnce(e: Editor)
    requires e.filename != ""
    ensures Export(e).saved.Some?
    ensures Export(Export(e).editor).saved.None?
    ensures Export(Export(e).editor).editor.message == EmptyNameMessage
  {
  }

  /** The feedback timer counts down once per frame while it is positive. */
  function TickTimer(e: Editor): (e': Editor)
    ensures e' == e.(timer := e'.timer)
    ensures e.timer >= 0 ==> e'.timer >= 0
    ensures e.timer > 0 ==> e'.timer == e.timer - 1
    ensures e.timer <= 0 ==> e'.timer == e.timer
  {
    if e.timer > 0 then e.(timer := e.timer - 1) else e
  }

  /** Where a click in the editor window lands. Hit-testing of the buttons
      is left to the caller; `Canvas` is any click left of the UI panel. */
  datatype Target =
    | NameBox | MenuButton | ClearButton | ExportButton
    | Palette(hits: seq<bool>)
    | Canvas(mx: int, my: int)

  /** A mouse-button press. Every click deactivates the name box except a
      click on it; the clear button blanks the canvas; a palette button
      selects its colour; a press on the canvas paints (button 1) or erases
      (button 3) the cell under it and starts the drag. */
  function MouseDown(e: Editor, t: Target, button: int): (res: ExportResult)
    requires Valid(e)
    requires t.Palette? ==> |t.hits| == ColourCount
    ensures Valid(res.editor)
    ensures res.editor.inputActive <==> t == NameBox
    ensures res.saved.Some? ==> t == ExportButton
    ensures t == ClearButton ==> forall r, c :: InGrid(res.editor.grid, r, c) ==> res.editor.grid[r][c] == 0
    ensures t != ClearButton && !t.Canvas? ==> res.editor.grid == e.grid
    ensures t.Canvas? && CanvasCell(t.mx, t.my).Some? && (button == 1 || button == 3) ==>
      var (row, col) := CanvasCell(t.mx, t.my).value;
      && res.editor.grid[row][col] == (if button == 1 then e.selected else 0)
      && forall r, c :: InGrid(e.grid, r, c) && (r, c) != (row, col) ==> res.editor.grid[r][c] == e.grid[r][c]
    ensures t.Canvas? && (CanvasCell(t.mx, t.my).None? || (button != 1 && button != 3)) ==>
      res.editor.grid == e.grid
    ensures t.Palette? ==> res.editor.selected == Pick(e.selected, t.hits)
    ensures !t.Palette? ==> res.editor.selected == e.selected
    ensures res.editor.drawing == (e.drawing || (t.Canvas? && CanvasCell(t.mx, t.my).Some? && button == 1))
    ensures res.editor.erasing == (e.erasing || (t.Canvas? && CanvasCell(t.mx, t.my).Some? && button == 3))
    ensures t != ExportButton ==>
      res.editor.filename == e.filename && res.editor.message == e.message && res.editor.timer == e.timer
    ensures t == ExportButton ==>
      && res.editor.timer == FeedbackFrames
      && (res.saved.Some? <==> e.filename != "")
      && (res.saved.Some? ==> res.saved.value == SavePath(e.filename) && res.editor.filename == "")
  {
    var e0 := e.(inputActive := false);
    match t
    case NameBox => ExportResult(e.(inputActive := true), None)
    case MenuButton => ExportResult(e0, None)
    case ClearButton => ExportResult(e0.(grid := Blank(Dim, Dim)), None)
    case ExportButton => Export(e0)
    case Palette(hits) =>
      PickStaysInRange(e.selected, hits);
      ExportResult(e0.(selected := Pick(e.selected, hits)), None)
    case Canvas(mx, my) =>
      match CanvasCell(mx, my)
      case None => ExportResult(e0, None)
      case Some((row, col)) =>
        if button == 1 then
          ExportResult(e0.(drawing := true, grid := SetCell(e.grid, row, col, e.selected)), None)
        else if button == 3 then
          ExportResult(e0.(erasing := true, grid := SetCell(e.grid, row, col, 0)), None)
        else ExportResult(e0, None)
  }

  /** A mouse-button release ends drawing and erasing. */
  function MouseUp(e: Editor): (e': Editor)
    ensures !e'.drawing && !e'.erasing
    ensures e'.grid == e.grid && e'.selected == e.selected && e'.inputActive == e.inputActive
    ensures e'.filename == e.filename && e'.message == e.message && e'.timer == e.timer
  {
    e.(drawing := false, erasing := false)
  }
}

=== FILE: world.dfy ===
/** The level as the physics sees it: solid tile rectangles derived from a
    parsed tile grid, and the world's size in pixels. */
module TileWorld {
  import opened Geometry
  import opened Grids

  const GridSize: int := 40
  const ScreenWidth: int := 1280
  const ScreenHeight: int := 720
  /** Number of floor tiles in the world built when no level file exists. */
  const FallbackTileCount: int := 50

  datatype World = World(tiles: seq<Rect>, pixelWidth: int, pixelHeight: int)

  /** The rectangle of the cell in row `row` and column `col`. */
  function TileAt(row: int, col: int): Rect {
    Rect(col * GridSize, row * GridSize, GridSize, GridSize)
  }

  /** `t` is the rectangle of a cell of `g` holding a positive code (0 is
      an empty cell, any positive code a solid one). */
  predicate IsSolidCellTile(g: Grid, t: Rect) {
    && t.w == GridSize && t.h == GridSize
    && t.x % GridSize == 0 && t.y % GridSize == 0
    && 0 <= t.y / GridSize < |g|
    && 0 <= t.x / GridSize < |g[t.y / GridSize]|
    && g[t.y / GridSize][t.x / GridSize] > 0
  }

  /** `a` comes before `b` when cells are visited row by row, left to right. */
  predicate RowMajorBefore(a: Rect, b: Rect) {
    a.y < b.y || (a.y == b.y && a.x < b.x)
  }

  predicate RowMajorSorted(ts: seq<Rect>) {
    forall i, j :: 0 <= i < j < |ts| ==> RowMajorBefore(ts[i], ts[j])
  }

  /** The tiles appended while scanning one row, in column order. */
  function RowTiles(row: seq<int>, r: int): seq<Rect>
  {
    if |row| == 0 then []
    else RowTiles(row[..|row| - 1], r)
         + (if row[|row| - 1] > 0 then [TileAt(r, |row| - 1)] else [])
  }

  /** The tiles appended while scanning the whole grid, row by row. */
  function GridTiles(g: Grid): seq<Rect>
  {
    if |g| == 0 then []
    else GridTiles(g[..|g| - 1]) + RowTiles(g[|g| - 1], |g| - 1)
  }

  /** The tiles of one row are exactly its solid cells, left to right. */
  lemma {:induction false} RowTilesSpec(row: seq<int>, r: int)
    ensures forall t :: t in RowTiles(row, r) <==>
      (&& t.w == GridSize && t.h == GridSize
       && t.y == r * GridSize && t.x % GridSize == 0
       && 0 <= t.x / GridSize < |row| && row[t.x / GridSize] > 0)
    ensures forall i, j :: 0 <= i < j < |RowTiles(row, r)| ==>
      RowTiles(row, r)[i].x < RowTiles(row, r)[j].x
  {
    if |row| > 0 {
      var n := |row| - 1;
      var init := row[..n];
      RowTilesSpec(init, r);
      var a := RowTiles(init, r);
      var b := if row[n] > 0 then [TileAt(r, n)] else [];
      assert RowTiles(row, r) == a + b;
      forall t | t in a
        ensures t.x < n * GridSize
      {
        DivBound(t.x, n);
      }
      forall t
        ensures t in a + b <==>
          (&& t.w == GridSize && t.h == GridSize
           && t.y == r * GridSize && t.x % GridSize == 0
           && 0 <= t.x / GridSize < |row| && row[t.x / GridSize] > 0)
      {
        if t.x % GridSize == 0 && t.x / GridSize == n {
          assert t.x == n * GridSize;
        }
      }
    }
  }

  /** A multiple of the grid size below column `n`'s left edge. */
  lemma DivBound(x: int, n: int)
    requires x % GridSize == 0 && x / GridSize < n
    ensures x < n * GridSize
  {
  }

  /** The tiles of a grid are exactly its solid cells, in row-major order. */
  lemma {:induction false} GridTilesSpec(g: Grid)
    ensures forall t :: t in GridTiles(g) <==> IsSolidCellTile(g, t)
    ensures RowMajorSorted(GridTiles(g))
  {
    if |g| > 0 {
      var n := |g| - 1;
      var init := g[..n];
      GridTilesSpec(init);
      RowTilesSpec(g[n], n);
      var a := GridTiles(init);
      var b := RowTiles(g[n], n);
      assert GridTiles(g) == a + b;
      forall t | t in a
        ensures t.y < n * GridSize
      {
        DivBound(t.y, n);
      }
      forall t
        ensures t in a + b <==> IsSolidCellTile(g, t)
      {
        if t.y % GridSize == 0 && t.y / GridSize == n {
          assert t.y == n * GridSize;
        }
        if t.y == n * GridSize {
          assert t.y / GridSize == n;
        }
      }
    }
  }

  /** `World.__init__` once the level file has been parsed into `g`. */
  function FromGrid(g: Grid): (w: World)
    ensures forall t :: t in w.tiles <==> IsSolidCellTile(g, t)
    ensures RowMajorSorted(w.tiles)
    ensures |g| == 0 ==> w.pixelWidth == 0 && w.pixelHeight == 0
    ensures |g| > 0 ==> w.pixelHeight == |g| * GridSize
    ensures |g| > 0 ==> w.pixelWidth == |g[0]| * GridSize
  {
    GridTilesSpec(g);
    World(GridTiles(g), if |g| == 0 then 0 else |g[0]| * GridSize, |g| * GridSize)
  }

  /** `World.__init__` when the level file is missing: a floor along the
      bottom row of the screen. */
  function Fallback(): (w: World)
    ensures |w.tiles| == FallbackTileCount
    ensures forall i :: 0 <= i < |w.tiles| ==>
      w.tiles[i] == Rect(i * GridSize, ScreenHeight - GridSize, GridSize, GridSize)
    ensures w.pixelWidth == 2000 && w.pixelHeight == 720
  {
    World(seq(FallbackTileCount, i => TileAt(17, i)),
          FallbackTileCount * GridSize, ScreenHeight)
  }

  /** Loading a level: `None` stands for a level file that does not exist. */
  function Load(file: Option<Grid>): (w: World)
    ensures file.Some? ==> forall t :: t in w.tiles <==> IsSolidCellTile(file.value, t)
    ensures file.Some? ==> RowMajorSorted(w.tiles)
    ensures file.None? ==> |w.tiles| == FallbackTileCount && w.pixelWidth == 2000 && w.pixelHeight == 720
    ensures file.None? ==> forall i :: 0 <= i < |w.tiles| ==>
      w.tiles[i] == Rect(i * GridSize, ScreenHeight - GridSize, GridSize, GridSize)
    ensures file.Some? && |file.value| == 0 ==> w.pixelWidth == 0 && w.pixelHeight == 0
    ensures file.Some? && |file.value| > 0 ==>
      w.pixelHeight == |file.value| * GridSize && w.pixelWidth == |file.value[0]| * GridSize
  {
    match file
    case None => Fallback()
    case Some(g) => FromGrid(g)
  }
}
